=== FILE: README.md ===
# Real-time trading ranker — a Dafny model

This project models the per-event pipeline of the `RealTimeTrading` engine
of the real-time-trading backend, plus three small helpers, and proves
properties of the model.

The engine watches a fixed set of stock symbols. For each raw ticker event it:

1. drops the event if it falls outside the update window
   `[open + bakeIn, close - bakeOut)` of the day's trading session
   (unless the window check is bypassed);
2. drops it if the last price is NaN;
3. drops it if the symbol is not tracked;
4. lets the symbol's intraday ticker update itself.

When the update reports a change, the engine re-ranks all tickers by gap and
rebuilds two leaderboards: the top board (positive gaps) and the bottom board
(negative gaps). It publishes each board whose entries differ from the board
it last published.

The helpers are `camel_to_snake`, the session lookups `get_market_open_close`
and `is_core_market_minutes`, the partition enumeration of
`set_offsets_by_time`, and the archive file name of `RawTickerFileHandler`.

Files (one module each):

- `common.dfy` (`Common`): `Option`, symbols, instants in microseconds.
- `ranking.dfy` (`Ranking`): the stable sort by gap and its uniqueness.
- `leaderboard.dfy` (`Leaderboard`): Python's `[:n]` slice, top and bottom
  entries, the snapshot value and its equality.
- `market_hours.dfy` (`MarketHours`): the abstract exchange calendar,
  `get_market_open_close` and `is_core_market_minutes`.
- `engine.dfy` (`Engine`): construction, the update window, ranking,
  `_check_top_symbols`, `_consume`, and a run over a stream of events.
- `naming.dfy` (`Naming`): `camel_to_snake`.
- `offsets.dfy` (`Offsets`): partition enumeration for seeking by time.
- `file_handler.dfy` (`FileHandler`): `_get_filename`.

## Modelling choices and assumptions

- The engine is an immutable value: a configuration, the ticker map, its
  insertion order, and the two last-published snapshots.
  `Consume(engine, calendar, update, event)` returns the next engine, the list
  of messages handed to the top-symbol producer, and how the event was
  disposed of.
- The insertion order matters: `rank_tickers` sorts the dictionary's values
  with a stable sort, so tickers with equal gaps keep their insertion order.
  The order is kept as a sequence beside the map. When a symbol appears in
  several contracts, it keeps its first position and holds the ticker of the
  last contract.
- `IntradayTicker`, its `update` and its gap formula are not part of this
  model. `update` is a function parameter returning the reported flag and the
  ticker as it leaves the call. The engine stores the returned ticker even
  when no change is reported, because the source mutates the ticker in place.
  Keeping the published snapshots in step with the ranking
  (`Engine.ConsumeKeepsInSync`) assumes that `update` keeps the gap whenever
  it reports no change.
- `TopNSymbols` is not part of this model. A snapshot is the triggering time
  plus its ordered (symbol, gap) entries. Two snapshots are assumed equal when
  their entries are equal, ignoring the time. So an equal snapshot does not
  replace the stored one, and the stored one keeps its original time.
- The exchange calendar is a function from a date to an optional
  (open, close) session. The date of an instant is a function parameter as
  well, a function of the instant alone (see "## Left out" on time zones).
- Instants are integers (microseconds). Bake values are minutes, scaled by
  60,000,000. Gaps are reals. A price is `NaN` or a real value.
- The top and bottom topic names come from a constants module that is not
  part of this model; they are the two values of `Topic`.

### Behaviour of the code worth knowing

- `_consume` checks the update window before the NaN price
  (`real_time_trading.py:158-167`). Either order rejects the same events,
  but the window check decides which warning is logged.
- `rank_tickers` sorts ascending (`real_time_trading.py:104`), and
  `get_top_n_tickers` keeps the first n positive entries
  (`real_time_trading.py:112`). So the top board holds the n SMALLEST
  positive gaps, smallest first, although its docstring reads "Return top n
  tickers by gap with a positive gap" (`real_time_trading.py:110`)
  (`Leaderboard.TopKeepsSmallestPositives`, `Engine.TopBoardSpec`). The
  bottom board holds the n most negative gaps, most negative first.
- Tickers with equal gaps stay in dictionary insertion order, because
  Python's sort is stable and no secondary key is given
  (`real_time_trading.py:103-104`).
- A negative top or bottom count is not rejected. Python's `[:n]` then drops
  `-n` entries from the end of either board
  (`Leaderboard.NegativeCountDropsFromEnd`).

## Model

| member | source | states |
|---|---|---|
| `Ranking.SortByGapPermutes` | backend/real_time_trading/real_time_trading.py:102-105 | ranking returns exactly the tickers it was given (same multiset) |
| `Ranking.SortByGapAscending` | backend/real_time_trading/real_time_trading.py:104 | the ranked list is non-decreasing by gap |
| `Ranking.SortByGapStable` | backend/real_time_trading/real_time_trading.py:104 | for every gap value, tickers with that gap keep their input order (the sort is stable) |
| `Ranking.SortByGapDistinct` | backend/real_time_trading/real_time_trading.py:103-104 | sorting a list whose symbols are distinct gives a list whose symbols are distinct |
| `Ranking.StableAscendingUnique` | backend/real_time_trading/real_time_trading.py:104 | two lists that are both ascending and agree on the order within each gap value are equal, so any stable ascending sort (Python's included) gives the modelled ranking |
| `Leaderboard.PrefixSlice` | backend/real_time_trading/real_time_trading.py:112 | Python's `s[:n]`: a prefix of length min(n, len) for n >= 0, and len+n (at least 0) for negative n |
| `Leaderboard.Where` | backend/real_time_trading/real_time_trading.py:112 | every entry of the filtered list passes the filter, and the list never grows |
| `Leaderboard.WhereCounts` | backend/real_time_trading/real_time_trading.py:112 | the filter keeps every copy of a passing entry and no copy of a failing one (so it keeps exactly the passing entries) |
| `Leaderboard.WhereMembers` | backend/real_time_trading/real_time_trading.py:112 | an entry is in the filtered list iff it is in the input and passes |
| `Leaderboard.WhereWithGap` | backend/real_time_trading/real_time_trading.py:112 | when the filter treats every entry of gap g alike, the filtered list holds all entries of gap g in their input order, or none of them |
| `Leaderboard.WhereAscending` | backend/real_time_trading/real_time_trading.py:112 | filtering an ascending list gives an ascending list |
| `Leaderboard.WhereDistinct` | backend/real_time_trading/real_time_trading.py:112 | filtering never repeats a symbol the input does not repeat |
| `Leaderboard.SelectionSpec` | backend/real_time_trading/real_time_trading.py:107-121 | from an ascending list, the first n entries that pass a filter: exactly min(n, number passing) entries, ascending, all pass, the entries of each gap value are an initial run of that value's passing entries in order, symbols stay distinct, and a passing entry is left out only when the selection is full of gaps no larger than its own |
| `Leaderboard.TopEntriesSpec` | backend/real_time_trading/real_time_trading.py:107-113 | top entries: exactly min(n, number of positive entries), all gaps > 0, ascending, for each gap value an initial run of the ranked entries with that gap and none for gaps <= 0, distinct symbols, and they are the n smallest positive gaps |
| `Leaderboard.BottomEntriesSpec` | backend/real_time_trading/real_time_trading.py:115-121 | bottom entries: exactly min(n, number of negative entries), all gaps < 0, most negative first, for each gap value an initial run of the ranked entries with that gap and none for gaps >= 0, distinct symbols, and they are the n most negative gaps |
| `Leaderboard.NegativeCountDropsFromEnd` | backend/real_time_trading/real_time_trading.py:112-120 | with a negative count the top entries are the positive entries minus the last -n, and the bottom entries the negative entries minus the last -n |
| `Leaderboard.SameBoardOrderSensitive` | backend/real_time_trading/real_time_trading.py:128 | snapshot comparison is order-sensitive: [(A,5),(B,3)] differs from [(B,3),(A,5)] |
| `Leaderboard.TopKeepsSmallestPositives` | backend/real_time_trading/real_time_trading.py:102-113 | gaps A=+5, B=+3, C=+7 with n=2 give the top board [(B,3),(A,5)], not [(C,7),(A,5)] |
| `MarketHours.MarketOpenClose` | backend/real_time_trading/utils.py:86-103 | open and close are both absent on a non-session date and both present, equal to that date's session, otherwise |
| `MarketHours.IsCoreMarketMinutes` | backend/real_time_trading/utils.py:76-83 | false on a non-session date; otherwise true exactly when open <= dt < close |
| `Engine.AddContract` | backend/real_time_trading/real_time_trading.py:79-82 | one dictionary assignment: a new key is appended to the order, an existing key keeps its place, the key holds the new ticker and every other key is untouched |
| `Engine.Register` | backend/real_time_trading/real_time_trading.py:77-82 | the tracked keys are exactly the contracts' symbols, each listed once in the insertion order |
| `Engine.RegisterLastWins` | backend/real_time_trading/real_time_trading.py:78-82 | a symbol carried by several contracts holds the ticker built from the last of them |
| `Engine.RegisterOrderByFirstAppearance` | backend/real_time_trading/real_time_trading.py:77-82 | registering a prefix of the contracts gives a prefix of the insertion order, so symbols are ordered by first appearance |
| `Engine.Init` | backend/real_time_trading/real_time_trading.py:41-90 | a fresh engine tracks exactly the contracts' symbols, satisfies the order/map invariant and has published nothing |
| `Engine.InsideUpdateWindow` | backend/real_time_trading/real_time_trading.py:92-100 | false on a non-session date whatever the bake values; otherwise true exactly when open + bakeIn <= dt < close - bakeOut (half-open) |
| `Engine.UnbakedWindowIsCoreMinutes` | backend/real_time_trading/real_time_trading.py:96-100 | with both bake values 0 the update window coincides with `is_core_market_minutes` |
| `Engine.WindowShrinksWithBake` | backend/real_time_trading/real_time_trading.py:96-100 | larger bake values never admit an instant that smaller ones reject |
| `Engine.WindowWithinCoreMinutes` | backend/real_time_trading/real_time_trading.py:96-100 | with non-negative bake values, every instant in the update window is a core market minute |
| `Engine.RankSpec` | backend/real_time_trading/real_time_trading.py:102-105 | the ranking is a permutation of all tracked (symbol, gap) entries, ascending by gap, stable in insertion order, with no symbol twice, and the only list with these properties |
| `Engine.TopBoardSpec` | backend/real_time_trading/real_time_trading.py:102-113 | the top board holds at most nTop distinct tracked symbols with their current positive gaps, ascending; tickers of equal gap are taken in insertion order; a positive ticker is missing only when the board is full of smaller or equal gaps |
| `Engine.BottomBoardSpec` | backend/real_time_trading/real_time_trading.py:102-121 | the bottom board holds at most nBottom distinct tracked symbols with their current negative gaps, most negative first; tickers of equal gap are taken in insertion order; a negative ticker is missing only when the board is full of smaller or equal gaps |
| `Engine.CheckTopSymbols` | backend/real_time_trading/real_time_trading.py:123-147 | each side sends exactly one message iff nothing is stored or the new snapshot differs; afterwards the stored snapshot equals the new one, and it is kept as is when they were equal; top goes before bottom; messages carry the given time; nothing else changes |
| `Engine.RecheckIsQuiet` | backend/real_time_trading/real_time_trading.py:128-142 | when both stored snapshots match the current ranking, checking again sends nothing and changes nothing |
| `Engine.CheckTwiceSendsOnce` | backend/real_time_trading/real_time_trading.py:123-147 | two checks with no ticker change in between: the second sends nothing and changes nothing |
| `Engine.Consume` | backend/real_time_trading/real_time_trading.py:149-176 | window, then NaN, then unknown symbol, each rejection iff its condition holds and changes nothing; an accepted event updates only its own ticker; no reported change sends nothing and keeps both snapshots; a change runs the publish check; keys and order never change; at most one message per side, top first |
| `Engine.ConsumeKeepsInSync` | backend/real_time_trading/real_time_trading.py:158-176 | if the stored snapshots match the ranking before an event, they match it after, given that `update` keeps the gap when it reports no change |
| `Engine.SameEventTwiceSendsOnce` | backend/real_time_trading/real_time_trading.py:174-176 | feeding the same event again sends nothing when the second update reports no change |
| `Engine.ConsumeAll` | backend/real_time_trading/real_time_trading.py:178-181 | over any stream of events the tracked symbols, their order and the configuration never change; at most two messages per event in all to the top-symbol producer, and at most as many messages per side as there are events |
| `Engine.ConsumeAllBatches` | backend/real_time_trading/real_time_trading.py:149-181 | a run's messages are one batch per event, in event order; each batch holds at most one message per side, top first, stamped with its own event's time |
| `Naming.LStripUnderscores` | backend/real_time_trading/utils.py:23 | `lstrip("_")` removes only leading underscores and leaves a string that does not start with one |
| `Naming.CamelToSnake` | backend/real_time_trading/utils.py:20-23 | the result has no upper-case letter and does not start with `_`; without underscores it is the input, lower-cased, without underscores |
| `Naming.CamelToSnakeSnoc` | backend/real_time_trading/utils.py:20-23 | appending one character to the name: an upper-case letter appends `_` and its lower case, any other character appends itself; while the result so far is empty, a leading `_` is dropped (an upper-case letter adds only its lower case, an `_` adds nothing). With `CamelToSnake("") == ""` this fixes the result of every name |
| `Naming.CamelToSnakeIdentity` | backend/real_time_trading/utils.py:20-23 | a name with no upper-case letter and no leading `_` is returned unchanged |
| `Naming.CamelToSnakeIdempotent` | backend/real_time_trading/utils.py:20-23 | converting twice is converting once |
| `Naming.LeadingUnderscoreIgnored` | backend/real_time_trading/utils.py:23 | leading underscores in the input are stripped as well |
| `Naming.CamelCaseExample` | backend/real_time_trading/utils.py:22 | "CamelCase" becomes "camel_case" |
| `Offsets.AppendPartitions` | backend/real_time_trading/utils.py:132-133 | the earlier entries stay in front, unchanged; behind them every partition of the topic is appended exactly once, and nothing else |
| `Offsets.CollectPartitions` | backend/real_time_trading/utils.py:128-133 | collects exactly the partitions listed for subscribed topics, skipping topics whose partition set is None |
| `Offsets.SeekTargets` | backend/real_time_trading/utils.py:124-137 | no target map when the subscription is None or empty; otherwise exactly the listed partitions, each mapped to the start time |
| `FileHandler.EffectivePrefix` | backend/real_time_trading/handlers.py:71-77 | a None or empty prefix becomes "raw_ticker_" + day; a non-empty prefix is used verbatim |
| `FileHandler.GetFilename` | backend/real_time_trading/handlers.py:70-78 | the file name starts with directory + "/" and ends with ".txt" |
| `FileHandler.FilenameRoundTrip` | backend/real_time_trading/handlers.py:78 | the symbol can be read back from the file name, given the directory and effective prefix |
| `FileHandler.FilenameInjective` | backend/real_time_trading/handlers.py:78 | for a fixed directory, prefix and day, distinct symbols get distinct file names |

## Left out

- Kafka plumbing: consumer and producer construction, the `consume` loop over
  the broker, and the `send` calls. Messages are returned as a list, and
  `Engine.ConsumeAll` folds `Consume` over a finite list of events.
- Logging setup and log calls: no effect on state.
- The unused `today` value and the commented-out previous-day check in
  `_consume`: dead code.
- Pickle, UTF-8 `str2bytes`/`bytes2str`, and the `strftime`/`strptime`
  wrappers: serialisation and formatting only.
- Clock reads: `get_today`, `get_utcnow`, `get_local_now`, and
  `get_market_open_close` called without an instant. The day string of
  `_get_filename` and the start time of `set_offsets_by_time` are parameters.
- The exchange-calendar library: it is an abstract function.
- The `offsets_for_times` and `seek` calls, the aiokafka variant of
  `set_offsets_by_time`, and its default start-of-day time: broker I/O and
  clock.
- The Kafka handler with its lazily created producer, the `Handler` base
  class, the file writes of `RawTickerFileHandler`, and `makedirs`: I/O.
- The messages each `IntradayTicker` sends on the shared intraday producer
  (real_time_trading.py:58-66 and 79-82): they are sent from inside
  `update`, whose code is not part of this model. Message counts in the
  model are for the top-symbol producer only.
- `IntradayTicker` (its constructor, `update` and gap formula), `RawTicker`
  decoding, and `TopNSymbols` (`from_tickers`, `__eq__`, `to_message`): their
  classes are not part of this model. They are parameters or abstract values,
  with the assumptions listed above.
- Floating point: gaps are reals with exact comparison. A NaN gap is not
  modelled. A NaN price is a tag.
- `is_core_market_minutes` asserts that the instant is time-zone aware. Here
  every instant is absolute, so the assertion always holds.
- MarketHours.Calendar.dateOf: the date of an instant is taken in one fixed
  time zone. Python formats each datetime in its own `tzinfo`
  (utils.py:51-52, 98), so two events at the same instant carrying different
  zones can fall on different dates, and so get different session, core-minutes
  and update-window verdicts. The model gives both the same verdict.
- Naming.CamelToSnake: only ASCII `A`-`Z` count as upper case. Python's
  `isupper`/`lower` also convert letters of other scripts.
- Engine.ConsumeKeepsInSync: holds only if `update` keeps the gap whenever it
  reports no change. The code of `update` is not available to prove this.

=== FILE: common.dfy ===
/** Shared vocabulary of the model: an optional value, symbols and instants. */
module Common {

  /** Python's `None` / present value. */
  datatype Option<+T> = None | Some(value: T)

  /** A ticker symbol such as "AAPL". */
  type Symbol = string

  /** An instant, as whole microseconds since the epoch (the resolution of a Python `datetime`). */
  type Time = int

  /** `timedelta(minutes=1)` expressed in microseconds. */
  const MicrosPerMinute: int := 60_000_000
}

=== FILE: engine.dfy ===
/**
  The `RealTimeTrading` engine as an immutable state and a pure per-event step.

  The engine owns a fixed map from symbol to per-symbol state (kept together
  with the dictionary's insertion order, which decides how ties in the stable
  sort fall) and the last published top and bottom snapshots. `Consume` is
  `_consume`: it filters an event (update window, NaN price, unknown symbol),
  lets the ticker update itself, and on a reported change re-ranks and
  publishes each side whose snapshot differs from the stored one. Messages
  handed to the producer are returned as a list instead of being sent.
 */
module Engine {
  import opened Common
  import opened Ranking
  import opened Leaderboard
  import opened MarketHours

  /**
    A stock contract; only its symbol matters to the engine. `conId` stands in
    for the contract's other fields and is never read.
   */
  datatype Contract = Contract(symbol: Symbol, conId: int)

  /** A last-trade price; `NaN` is the feed's "no trade yet" value. */
  datatype Price = NaN | Val(value: real)

  /** `RawTicker`: one market-data event. */
  datatype RawTicker = RawTicker(symbol: Symbol, last: Price, time: Time)

  /**
    `IntradayTicker`: the per-symbol state. Its class is not part of this
    model; the engine reads only `gap`. `last` and `time` stand in for the
    state that `update` keeps and are never read here.
   */
  datatype Ticker = Ticker(contract: Contract, last: real, gap: Gap, time: Time)

  /** What `IntradayTicker.update` reports, and the ticker as it leaves the call. */
  datatype Update = Update(changed: bool, ticker: Ticker)

  /** `IntradayTicker.update`, an external collaborator. */
  type Updater = (Ticker, RawTicker) -> Update

  /** Constructor arguments of `RealTimeTrading`, fixed for the engine's lifetime. */
  datatype Config = Config(
    bakeInMinutes: int,
    bakeOutMinutes: int,
    nTop: int,
    nBottom: int,
    bypassWindow: bool
  )

  /** The two producer topics (`TOP_HIGH_EVENT` and `TOP_LOW_EVENT`). */
  datatype Topic = TopHigh | TopLow

  /** One message handed to the top-symbol producer. */
  datatype Published = Published(topic: Topic, board: Board)

  /** The engine's state between events. */
  datatype State = State(
    config: Config,
    order: seq<Symbol>,          // keys of `self.tickers` in insertion order
    tickers: map<Symbol, Ticker>,
    top: Option<Board>,          // `self.top_n_symbols`
    bottom: Option<Board>        // `self.bottom_n_symbols`
  )

  predicate Distinct(s: seq<Symbol>) {
    forall i, j :: 0 <= i < j < |s| ==> s[i] != s[j]
  }

  /** The insertion order lists every key of the ticker map exactly once. */
  predicate Valid(e: State) {
    && Distinct(e.order)
    && (forall s :: s in e.order ==> s in e.tickers)
    && (forall s :: s in e.tickers ==> s in e.order)
  }

  // ---------------------------------------------------------------- construction

  /** The symbols of a list of contracts. */
  function Symbols(contracts: seq<Contract>): set<Symbol> {
    set c | c in contracts :: c.symbol
  }

  /**
    One assignment `tickers[c.symbol] = IntradayTicker(c)`: a new key goes to
    the end of the insertion order, an existing key keeps its place; either
    way the key now holds the new ticker and no other key changes.
   */
  function AddContract(order: seq<Symbol>, tickers: map<Symbol, Ticker>, c: Contract, newTicker: Contract -> Ticker)
    : (r: (seq<Symbol>, map<Symbol, Ticker>))
    requires Distinct(order) && forall s :: s in order <==> s in tickers
    ensures Distinct(r.0) && forall s :: s in r.0 <==> s in r.1
    ensures r.1.Keys == tickers.Keys + {c.symbol}
    ensures r.1[c.symbol] == newTicker(c)
    ensures forall s :: s in tickers && s != c.symbol ==> r.1[s] == tickers[s]
    ensures |order| <= |r.0| && r.0[..|order|] == order
  {
    (if c.symbol in tickers then order else order + [c.symbol], tickers[c.symbol := newTicker(c)])
  }

  /**
    The constructor's loop `self.tickers[contract.symbol] = IntradayTicker(contract)`:
    the keys are exactly the contracts' symbols, each listed once in the
    insertion order.
   */
  function Register(contracts: seq<Contract>, newTicker: Contract -> Ticker): (r: (seq<Symbol>, map<Symbol, Ticker>))
    ensures Distinct(r.0) && forall s :: s in r.0 <==> s in r.1
    ensures r.1.Keys == Symbols(contracts)
  {
    if |contracts| == 0 then ([], map[])
    else
      var init := contracts[..|contracts| - 1];
      var last := contracts[|contracts| - 1];
      var prev := Register(init, newTicker);
      assert contracts == init + [last];
      assert Symbols(contracts) == Symbols(init) + {last.symbol};
      AddContract(prev.0, prev.1, last, newTicker)
  }

  /** A symbol listed by several contracts holds the ticker of the LAST of them. */
  lemma {:induction false} RegisterLastWins(contracts: seq<Contract>, newTicker: Contract -> Ticker, i: int)
    requires 0 <= i < |contracts|
    requires forall j :: i < j < |contracts| ==> contracts[j].symbol != contracts[i].symbol
    ensures contracts[i].symbol in Register(contracts, newTicker).1
    ensures Register(contracts, newTicker).1[contracts[i].symbol] == newTicker(contracts[i])
    decreases |contracts|
  {
    var init := contracts[..|contracts| - 1];
    if i < |contracts| - 1 {
      RegisterLastWins(init, newTicker, i);
    }
  }

  /**
    The insertion order grows only at its end: registering the first `n`
    contracts gives a prefix of the full order. With the key set above, the
    order lists each symbol at its first appearance among the contracts.
   */
  lemma {:induction false} RegisterOrderByFirstAppearance(contracts: seq<Contract>, newTicker: Contract -> Ticker, n: nat)
    requires n <= |contracts|
    ensures var part := Register(contracts[..n], newTicker).0;
      var full := Register(contracts, newTicker).0;
      |part| <= |full| && full[..|part|] == part
    decreases |contracts|
  {
    if n < |contracts| {
      var init := contracts[..|contracts| - 1];
      assert contracts[..n] == init[..n];
      RegisterOrderByFirstAppearance(init, newTicker, n);
    } else {
      assert contracts[..n] == contracts;
    }
  }

  /** `RealTimeTrading.__init__`: every contract tracked, nothing published yet. */
  function Init(config: Config, contracts: seq<Contract>, newTicker: Contract -> Ticker): (e: State)
    ensures Valid(e)
    ensures e.config == config && e.top.None? && e.bottom.None?
    ensures e.tickers.Keys == Symbols(contracts)
  {
    var (order, tickers) := Register(contracts, newTicker);
    State(config, order, tickers, None, None)
  }

  // ---------------------------------------------------------------- update window

  /**
    `inside_update_window(dt)`: false on a non-session date whatever the bake
    values, otherwise `open + bakeIn <= dt < close - bakeOut`.
   */
  function InsideUpdateWindow(cal: Calendar, bakeInMinutes: int, bakeOutMinutes: int, dt: Time): (b: bool)
    ensures SessionAt(cal, dt).None? ==> !b
    ensures b <==> exists s :: SessionAt(cal, dt) == Some(s)
                      && s.open + bakeInMinutes * MicrosPerMinute <= dt < s.close - bakeOutMinutes * MicrosPerMinute
  {
    var (open, close) := MarketOpenClose(cal, dt);
    if open.None? || close.None? then false
    else
      var openAfterBakeIn := open.value + bakeInMinutes * MicrosPerMinute;
      var closeBeforeBakeOut := close.value - bakeOutMinutes * MicrosPerMinute;
      dt >= openAfterBakeIn && dt < closeBeforeBakeOut
  }

  /** With both bake values 0 the update window is the core-market-minutes test. */
  lemma UnbakedWindowIsCoreMinutes(cal: Calendar, dt: Time)
    ensures InsideUpdateWindow(cal, 0, 0, dt) == IsCoreMarketMinutes(cal, dt)
  {
  }

  /** Larger bake values only shrink the window. */
  lemma WindowShrinksWithBake(cal: Calendar, in1: int, out1: int, in2: int, out2: int, dt: Time)
    requires in1 <= in2 && out1 <= out2
    ensures InsideUpdateWindow(cal, in2, out2, dt) ==> InsideUpdateWindow(cal, in1, out1, dt)
  {
  }

  /** With non-negative bake values every instant of the window is a core market minute. */
  lemma WindowWithinCoreMinutes(cal: Calendar, bakeIn: int, bakeOut: int, dt: Time)
    requires 0 <= bakeIn && 0 <= bakeOut
    ensures InsideUpdateWindow(cal, bakeIn, bakeOut, dt) ==> IsCoreMarketMinutes(cal, dt)
  {
    WindowShrinksWithBake(cal, 0, 0, bakeIn, bakeOut, dt);
  }

  /** Whether `_consume` lets an event with time `dt` past its first check. */
  predicate WindowAdmits(c: Config, cal: Calendar, dt: Time) {
    c.bypassWindow || InsideUpdateWindow(cal, c.bakeInMinutes, c.bakeOutMinutes, dt)
  }

  // ---------------------------------------------------------------- ranking

  /** The tracked tickers as (symbol, gap) entries, in insertion order. */
  function Entries(e: State): (r: seq<Entry>)
    requires Valid(e)
    ensures |r| == |e.order|
    ensures forall i :: 0 <= i < |r| ==> r[i] == Entry(e.order[i], e.tickers[e.order[i]].gap)
  {
    seq(|e.order|, i requires 0 <= i < |e.order| => Entry(e.order[i], e.tickers[e.order[i]].gap))
  }

  /** `rank_tickers`: the tickers in insertion order, stably sorted by gap, ascending. */
  function Rank(e: State): seq<Entry>
    requires Valid(e)
  {
    SortByGap(Entries(e))
  }

  /**
    The ranking is a permutation of all tracked tickers, non-decreasing by
    gap, keeps tickers of equal gap in insertion order, and is the only list
    with those properties.
   */
  lemma RankSpec(e: State)
    requires Valid(e)
    ensures multiset(Rank(e)) == multiset(Entries(e))
    ensures forall x :: x in Rank(e) <==> x.symbol in e.tickers && x.gap == e.tickers[x.symbol].gap
    ensures Ascending(Rank(e))
    ensures StableFor(Entries(e), Rank(e))
    ensures DistinctSymbols(Rank(e))
    ensures forall other :: Ascending(other) && StableFor(Entries(e), other) ==> other == Rank(e)
  {
    var es := Entries(e);
    SortByGapPermutes(es);
    SortByGapAscending(es);
    SortByGapStable(es);
    SortByGapDistinct(es);
    forall x
      ensures x in Rank(e) <==> x.symbol in e.tickers && x.gap == e.tickers[x.symbol].gap
    {
      assert x in Rank(e) <==> x in multiset(es);
      if x.symbol in e.tickers && x.gap == e.tickers[x.symbol].gap {
        var i :| 0 <= i < |e.order| && e.order[i] == x.symbol;
        assert es[i] == x;
      }
    }
    forall other | Ascending(other) && StableFor(es, other)
      ensures other == Rank(e)
    {
      StableAscendingUnique(other, Rank(e));
    }
  }

  /** The top snapshot `_check_top_symbols` builds at `time`. */
  function TopBoard(e: State, time: Time): Board
    requires Valid(e)
  {
    Board(time, TopEntries(Rank(e), e.config.nTop))
  }

  /** The bottom snapshot `_check_top_symbols` builds at `time`. */
  function BottomBoard(e: State, time: Time): Board
    requires Valid(e)
  {
    Board(time, BottomEntries(Rank(e), e.config.nBottom))
  }

  /**
    The top snapshot in terms of the tracked tickers: at most `nTop` entries,
    each a tracked symbol with its current, positive gap, ascending, no symbol
    twice; tickers of equal gap are taken in insertion order; a tracked
    ticker with a positive gap is missing only when the snapshot is full of
    gaps no larger than its own.
   */
  lemma TopBoardSpec(e: State, time: Time)
    requires Valid(e) && 0 <= e.config.nTop
    ensures var top := TopBoard(e, time).entries;
      && |top| <= e.config.nTop
      && Ascending(top)
      && DistinctSymbols(top)
      && (forall y :: y in top ==> y.symbol in e.tickers && y.gap == e.tickers[y.symbol].gap && y.gap > 0.0)
      && (forall g :: IsPrefix(WithGap(top, g), if g > 0.0 then WithGap(Entries(e), g) else []))
      && (forall s :: s in e.tickers && e.tickers[s].gap > 0.0 && Entry(s, e.tickers[s].gap) !in top ==>
            |top| == e.config.nTop && forall y :: y in top ==> y.gap <= e.tickers[s].gap)
  {
    RankSpec(e);
    TopEntriesSpec(Rank(e), e.config.nTop);
  }

  /**
    The bottom snapshot in terms of the tracked tickers: at most `nBottom`
    entries, each a tracked symbol with its current, negative gap, most
    negative first, no symbol twice; tickers of equal gap are taken in
    insertion order; a tracked ticker with a negative gap is missing only
    when the snapshot is full of gaps no larger than its own.
   */
  lemma BottomBoardSpec(e: State, time: Time)
    requires Valid(e) && 0 <= e.config.nBottom
    ensures var bottom := BottomBoard(e, time).entries;
      && |bottom| <= e.config.nBottom
      && Ascending(bottom)
      && DistinctSymbols(bottom)
      && (forall y :: y in bottom ==> y.symbol in e.tickers && y.gap == e.tickers[y.symbol].gap && y.gap < 0.0)
      && (forall g :: IsPrefix(WithGap(bottom, g), if g < 0.0 then WithGap(Entries(e), g) else []))
      && (forall s :: s in e.tickers && e.tickers[s].gap < 0.0 && Entry(s, e.tickers[s].gap) !in bottom ==>
            |bottom| == e.config.nBottom && forall y :: y in bottom ==> y.gap <= e.tickers[s].gap)
  {
    RankSpec(e);
    BottomEntriesSpec(Rank(e), e.config.nBottom);
  }

  // ---------------------------------------------------------------- publishing

  /** The publish test of one side: nothing stored yet, or the new snapshot differs. */
  predicate Differs(stored: Option<Board>, latest: Board) {
    stored.None? || !SameBoard(stored.value, latest)
  }

  /** The boards sent on `topic`, in sending order. */
  function SentOn(sent: seq<Published>, topic: Topic): seq<Board>
  {
    if |sent| == 0 then []
    else SentOn(sent[..|sent| - 1], topic) + (if sent[|sent| - 1].topic == topic then [sent[|sent| - 1].board] else [])
  }

  /** Top messages precede bottom messages, with at most one message per topic. */
  predicate TopThenBottom(sent: seq<Published>) {
    && |sent| <= 2
    && forall i, j :: 0 <= i < j < |sent| ==> sent[i].topic == TopHigh && sent[j].topic == TopLow
  }

  datatype Step = Step(engine: State, sent: seq<Published>)

  datatype Side = Side(stored: Option<Board>, sent: seq<Published>)

  /** One side of `_check_top_symbols`: store and send the new snapshot when it differs. */
  function PublishSide(stored: Option<Board>, latest: Board, topic: Topic): (r: Side)
    ensures SentOn(r.sent, topic) == (if Differs(stored, latest) then [latest] else [])
    ensures forall t :: t != topic ==> SentOn(r.sent, t) == []
    ensures |r.sent| <= 1 && forall p :: p in r.sent ==> p == Published(topic, latest)
    ensures r.stored.Some? && SameBoard(r.stored.value, latest)
    ensures !Differs(stored, latest) ==> r.stored == stored
  {
    if Differs(stored, latest) then
      assert [Published(topic, latest)][..0] == [];
      Side(Some(latest), [Published(topic, latest)])
    else Side(stored, [])
  }

  /** Both sides of `_check_top_symbols` for given new snapshots, top first. */
  function PublishBoth(e: State, top: Board, bottom: Board): (r: Step)
    ensures r.engine == e.(top := r.engine.top, bottom := r.engine.bottom)
    ensures SentOn(r.sent, TopHigh) == (if Differs(e.top, top) then [top] else [])
    ensures SentOn(r.sent, TopLow) == (if Differs(e.bottom, bottom) then [bottom] else [])
    ensures TopThenBottom(r.sent)
    ensures forall p :: p in r.sent ==> p.board == top || p.board == bottom
    ensures r.engine.top.Some? && SameBoard(r.engine.top.value, top)
    ensures r.engine.bottom.Some? && SameBoard(r.engine.bottom.value, bottom)
    ensures !Differs(e.top, top) ==> r.engine.top == e.top
    ensures !Differs(e.bottom, bottom) ==> r.engine.bottom == e.bottom
  {
    var topSide := PublishSide(e.top, top, TopHigh);
    var bottomSide := PublishSide(e.bottom, bottom, TopLow);
    SentOnAppend(topSide.sent, bottomSide.sent);
    Step(e.(top := topSide.stored, bottom := bottomSide.stored), topSide.sent + bottomSide.sent)
  }

  /**
    `_check_top_symbols(time)`: ranks once, then decides each side
    independently. A side is published (one message, with the new snapshot)
    exactly when nothing is stored for it or the new snapshot differs; after
    the call the stored snapshot equals the new one, and when they were equal
    the stored one is kept as it was. Nothing else in the engine changes.
   */
  function CheckTopSymbols(e: State, time: Time): (r: Step)
    requires Valid(e)
    ensures r.engine == e.(top := r.engine.top, bottom := r.engine.bottom)
    ensures SentOn(r.sent, TopHigh) == (if Differs(e.top, TopBoard(e, time)) then [TopBoard(e, time)] else [])
    ensures SentOn(r.sent, TopLow) == (if Differs(e.bottom, BottomBoard(e, time)) then [BottomBoard(e, time)] else [])
    ensures TopThenBottom(r.sent)
    ensures forall p :: p in r.sent ==> p.board.time == time
    ensures r.engine.top.Some? && SameBoard(r.engine.top.value, TopBoard(e, time))
    ensures r.engine.bottom.Some? && SameBoard(r.engine.bottom.value, BottomBoard(e, time))
    ensures !Differs(e.top, TopBoard(e, time)) ==> r.engine.top == e.top
    ensures !Differs(e.bottom, BottomBoard(e, time)) ==> r.engine.bottom == e.bottom
  {
    PublishBoth(e, TopBoard(e, time), BottomBoard(e, time))
  }

  /** The stored snapshots are what the current ranking would produce. */
  predicate InSync(e: State)
    requires Valid(e)
  {
    && (e.top.Some? ==> e.top.value.entries == TopEntries(Rank(e), e.config.nTop))
    && (e.bottom.Some? ==> e.bottom.value.entries == BottomEntries(Rank(e), e.config.nBottom))
  }

  /**
    Republishing with no change is a no-op: once both sides have been
    published for the current ranking, checking again, at any time, sends
    nothing and leaves the engine as it is.
   */
  lemma RecheckIsQuiet(e: State, time: Time)
    requires Valid(e) && InSync(e) && e.top.Some? && e.bottom.Some?
    ensures CheckTopSymbols(e, time) == Step(e, [])
  {
    var r := CheckTopSymbols(e, time);
    assert !Differs(e.top, TopBoard(e, time)) && !Differs(e.bottom, BottomBoard(e, time));
    SentOnCount(r.sent);
    assert r.engine == e;
  }

  /** Calling `_check_top_symbols` twice with no ticker change in between sends nothing the second time. */
  lemma CheckTwiceSendsOnce(e: State, t1: Time, t2: Time)
    requires Valid(e)
    ensures var r1 := CheckTopSymbols(e, t1);
      CheckTopSymbols(r1.engine, t2) == Step(r1.engine, [])
  {
    var r1 := CheckTopSymbols(e, t1);
    assert Rank(r1.engine) == Rank(e) by {
      assert Entries(r1.engine) == Entries(e);
    }
    RecheckIsQuiet(r1.engine, t2);
  }

  // ---------------------------------------------------------------- the per-event step

  /** How `_consume` disposed of an event. */
  datatype Outcome =
    | OutsideWindow   // rejected: outside the update window, bypass off
    | NanPrice        // rejected: the last price is NaN
    | UnknownSymbol   // rejected: the symbol is not tracked
    | Unchanged       // accepted, but `update` reported no change
    | Ranked          // accepted and changed: snapshots recomputed
  {
    predicate Rejected() { OutsideWindow? || NanPrice? || UnknownSymbol? }
  }

  datatype Consumed = Consumed(engine: State, sent: seq<Published>, outcome: Outcome)

  /** The ticker map after the event's ticker has been updated in place. */
  function Updated(e: State, update: Updater, ev: RawTicker): map<Symbol, Ticker>
    requires ev.symbol in e.tickers
  {
    e.tickers[ev.symbol := update(e.tickers[ev.symbol], ev).ticker]
  }

  /**
    The accepted part of `_consume`: the ticker is updated in place, and only
    a reported change runs the publish check.
   */
  function ApplyUpdate(e: State, update: Updater, ev: RawTicker): (r: Consumed)
    requires Valid(e) && ev.symbol in e.tickers
    ensures Valid(r.engine)
    ensures r.engine.config == e.config && r.engine.order == e.order && r.engine.tickers == Updated(e, update, ev)
    ensures r.outcome == (if update(e.tickers[ev.symbol], ev).changed then Ranked else Unchanged)
    ensures r.outcome == Unchanged ==> r.sent == [] && r.engine.top == e.top && r.engine.bottom == e.bottom
    ensures r.outcome == Ranked ==> Step(r.engine, r.sent) == CheckTopSymbols(e.(tickers := Updated(e, update, ev)), ev.time)
    ensures TopThenBottom(r.sent)
    ensures forall p :: p in r.sent ==> p.board.time == ev.time
  {
    var u := update(e.tickers[ev.symbol], ev);
    var e' := e.(tickers := e.tickers[ev.symbol := u.ticker]);
    if !u.changed then Consumed(e', [], Unchanged)
    else
      var step := CheckTopSymbols(e', ev.time);
      Consumed(step.engine, step.sent, Ranked)
  }

  /**
    `_consume(message)`. Checks run in the source's order: update window
    (unless bypassed), NaN price, unknown symbol. A rejected event changes
    nothing and sends nothing. An accepted event updates its ticker; only a
    reported change re-ranks, and then at most one message per side is sent,
    top first, stamped with the event's time. The set of tracked symbols and
    their order never change.
   */
  function Consume(e: State, cal: Calendar, update: Updater, ev: RawTicker): (r: Consumed)
    requires Valid(e)
    ensures Valid(r.engine)
    ensures r.engine.config == e.config && r.engine.order == e.order && r.engine.tickers.Keys == e.tickers.Keys
    ensures r.outcome == OutsideWindow <==> !WindowAdmits(e.config, cal, ev.time)
    ensures r.outcome == NanPrice <==> WindowAdmits(e.config, cal, ev.time) && ev.last.NaN?
    ensures r.outcome == UnknownSymbol <==> WindowAdmits(e.config, cal, ev.time) && ev.last.Val? && ev.symbol !in e.tickers
    ensures r.outcome.Rejected() ==> r.engine == e && r.sent == []
    ensures !r.outcome.Rejected() ==> ev.symbol in e.tickers && r.engine.tickers == Updated(e, update, ev)
    ensures r.outcome == Unchanged <==> !r.outcome.Rejected() && !update(e.tickers[ev.symbol], ev).changed
    ensures r.outcome == Unchanged ==> r.sent == [] && r.engine.top == e.top && r.engine.bottom == e.bottom
    ensures r.outcome == Ranked ==> Step(r.engine, r.sent) == CheckTopSymbols(e.(tickers := Updated(e, update, ev)), ev.time)
    ensures TopThenBottom(r.sent)
    ensures forall p :: p in r.sent ==> p.board.time == ev.time
  {
    if !WindowAdmits(e.config, cal, ev.time) then Consumed(e, [], OutsideWindow)
    else if ev.last.NaN? then Consumed(e, [], NanPrice)
    else if ev.symbol !in e.tickers then Consumed(e, [], UnknownSymbol)
    else ApplyUpdate(e, update, ev)
  }

  /** The updater keeps the gap whenever it reports no change (the `update` contract the engine relies on). */
  predicate KeepsGapWhenUnchanged(update: Updater, t: Ticker, ev: RawTicker) {
    !update(t, ev).changed ==> update(t, ev).ticker.gap == t.gap
  }

  /** Replacing a ticker by one with the same gap leaves the ranking as it was. */
  lemma SameGapSameRank(e: State, s: Symbol, t: Ticker)
    requires Valid(e) && s in e.tickers && t.gap == e.tickers[s].gap
    ensures Valid(e.(tickers := e.tickers[s := t]))
    ensures Rank(e.(tickers := e.tickers[s := t])) == Rank(e)
  {
    assert Entries(e.(tickers := e.tickers[s := t])) == Entries(e);
  }

  /**
    The stored snapshots stay in step with the ranking across any event,
    provided the updater keeps the gap when it reports no change.
   */
  lemma ConsumeKeepsInSync(e: State, cal: Calendar, update: Updater, ev: RawTicker)
    requires Valid(e) && InSync(e)
    requires ev.symbol in e.tickers ==> KeepsGapWhenUnchanged(update, e.tickers[ev.symbol], ev)
    ensures InSync(Consume(e, cal, update, ev).engine)
  {
    var r := Consume(e, cal, update, ev);
    if r.outcome == Unchanged {
      SameGapSameRank(e, ev.symbol, update(e.tickers[ev.symbol], ev).ticker);
    }
  }

  /**
    Feeding the same event twice in a row: when the second `update` reports
    no change (the metric is identical), the second call sends nothing.
   */
  lemma SameEventTwiceSendsOnce(e: State, cal: Calendar, update: Updater, ev: RawTicker)
    requires Valid(e)
    requires var e1 := Consume(e, cal, update, ev).engine;
      ev.symbol in e1.tickers ==> !update(e1.tickers[ev.symbol], ev).changed
    ensures Consume(Consume(e, cal, update, ev).engine, cal, update, ev).sent == []
  {
  }

  // ---------------------------------------------------------------- a run

  /** The state after a run, every message sent, and the messages sent for each event. */
  datatype Run = Run(engine: State, sent: seq<Published>, batches: seq<seq<Published>>)

  /** What one event may send: at most one message per side, top first, all stamped `time`. */
  predicate StampedBatch(batch: seq<Published>, time: Time) {
    TopThenBottom(batch) && forall p :: p in batch ==> p.board.time == time
  }

  /** The batches one after another. */
  function Flatten(batches: seq<seq<Published>>): seq<Published>
  {
    if |batches| == 0 then [] else Flatten(batches[..|batches| - 1]) + batches[|batches| - 1]
  }

  /**
    The `consume` loop over a finite stream of events: `Consume` applied to
    each in delivery order. Each event contributes one batch of at most two
    messages, top first, stamped with that event's time; so each side sends
    at most one message per event.
   */
  function ConsumeAll(e: State, cal: Calendar, update: Updater, events: seq<RawTicker>): (r: Run)
    requires Valid(e)
    ensures Valid(r.engine)
    ensures r.engine.config == e.config && r.engine.order == e.order && r.engine.tickers.Keys == e.tickers.Keys
    ensures |r.sent| <= 2 * |events|
    ensures |SentOn(r.sent, TopHigh)| <= |events| && |SentOn(r.sent, TopLow)| <= |events|
  {
    if |events| == 0 then Run(e, [], [])
    else
      var events' := events[..|events| - 1];
      var prev := ConsumeAll(e, cal, update, events');
      var step := Consume(prev.engine, cal, update, events[|events| - 1]);
      SentOnAppend(prev.sent, step.sent);
      OnePerTopic(step.sent);
      Run(step.engine, prev.sent + step.sent, prev.batches + [step.sent])
  }

  /**
    A run's messages are the per-event batches one after another, one batch
    per event, and each batch holds at most one message per side, top first,
    stamped with its own event's time.
   */
  lemma {:induction false} ConsumeAllBatches(e: State, cal: Calendar, update: Updater, events: seq<RawTicker>)
    requires Valid(e)
    ensures var r := ConsumeAll(e, cal, update, events);
      && |r.batches| == |events|
      && r.sent == Flatten(r.batches)
      && forall i :: 0 <= i < |events| ==> StampedBatch(r.batches[i], events[i].time)
    decreases |events|
  {
    if |events| > 0 {
      var events', ev := events[..|events| - 1], events[|events| - 1];
      ConsumeAllBatches(e, cal, update, events');
      var prev := ConsumeAll(e, cal, update, events');
      var step := Consume(prev.engine, cal, update, ev);
      assert StampedBatch(step.sent, ev.time);
      BatchesExtend(prev.batches, events, step.sent);
    }
  }

  /** Appending the last event's batch keeps every batch stamped with its own event's time. */
  lemma BatchesExtend(batches: seq<seq<Published>>, events: seq<RawTicker>, batch: seq<Published>)
    requires |events| == |batches| + 1
    requires forall i :: 0 <= i < |batches| ==> StampedBatch(batches[i], events[..|events| - 1][i].time)
    requires StampedBatch(batch, events[|events| - 1].time)
    ensures Flatten(batches + [batch]) == Flatten(batches) + batch
    ensures forall i :: 0 <= i < |events| ==> StampedBatch((batches + [batch])[i], events[i].time)
  {
    assert (batches + [batch])[..|batches|] == batches;
    forall i | 0 <= i < |events|
      ensures StampedBatch((batches + [batch])[i], events[i].time)
    {
      if i < |batches| {
        assert events[..|events| - 1][i] == events[i];
      }
    }
  }

  lemma {:induction false} SentOnAppend(a: seq<Published>, b: seq<Published>)
    ensures forall t :: SentOn(a + b, t) == SentOn(a, t) + SentOn(b, t)
    decreases |b|
  {
    if |b| == 0 {
      assert a + b == a;
    } else {
      SentOnAppend(a, b[..|b| - 1]);
      assert (a + b)[..|a + b| - 1] == a + b[..|b| - 1];
    }
  }

  /** Every message is sent on one of the two topics. */
  lemma {:induction false} SentOnCount(sent: seq<Published>)
    ensures |sent| == |SentOn(sent, TopHigh)| + |SentOn(sent, TopLow)|
    decreases |sent|
  {
    if |sent| > 0 {
      SentOnCount(sent[..|sent| - 1]);
    }
  }

  lemma OnePerTopic(sent: seq<Published>)
    requires TopThenBottom(sent)
    ensures forall t :: |SentOn(sent, t)| <= 1
  {
    forall t
      ensures |SentOn(sent, t)| <= 1
    {
      if |sent| == 2 {
        assert sent[0].topic == TopHigh && sent[1].topic == TopLow;
        assert sent[..1] == [sent[0]];
        assert [sent[0]][..0] == [];
        assert SentOn(sent[..1], t) == (if t == TopHigh then [sent[0].board] else []);
        assert SentOn(sent, t) == SentOn(sent[..1], t) + (if t == TopLow then [sent[1].board] else []);
      } else if |sent| == 1 {
        assert sent[..0] == [];
      }
    }
  }
}

=== FILE: file_handler.dfy ===
/**
  `RawTickerFileHandler._get_filename`: the per-symbol archive file name.
  The local date, formatted `%Y%m%d`, is passed in as `today`.
 */
module FileHandler {
  import opened Common

  const DefaultPrefixStem: string := "raw_ticker_"
  const Extension: string := ".txt"

  /** `if not prefix`: a `None` or empty prefix falls back to `raw_ticker_<today>`. */
  function EffectivePrefix(filenamePrefix: Option<string>, today: string): (p: string)
    ensures filenamePrefix.None? || filenamePrefix.value == "" ==> p == DefaultPrefixStem + today
    ensures filenamePrefix.Some? && filenamePrefix.value != "" ==> p == filenamePrefix.value
  {
    match filenamePrefix
    case Some(given) => if given == "" then DefaultPrefixStem + today else given
    case None => DefaultPrefixStem + today
  }

  /** `f"{directory}/{prefix}_{symbol}.txt"` with the effective prefix. */
  function GetFilename(directory: string, filenamePrefix: Option<string>, today: string, symbol: Symbol): (r: string)
    ensures |r| == |directory| + |EffectivePrefix(filenamePrefix, today)| + |symbol| + 6
    ensures r[..|directory| + 1] == directory + "/"
    ensures r[|r| - 4..] == Extension
  {
    directory + "/" + EffectivePrefix(filenamePrefix, today) + "_" + symbol + Extension
  }

  /**
    Reads the symbol back out of a file name built in `directory` with the
    effective prefix `prefix`; `None` when the name does not have that shape.
   */
  function SymbolOfFilename(directory: string, prefix: string, filename: string): Option<Symbol>
  {
    var head := directory + "/" + prefix + "_";
    if |filename| >= |head| + |Extension|
       && filename[..|head|] == head
       && filename[|filename| - |Extension|..] == Extension
    then Some(filename[|head|..|filename| - |Extension|])
    else None
  }

  /** The symbol can be read back from the file name. */
  lemma FilenameRoundTrip(directory: string, filenamePrefix: Option<string>, today: string, symbol: Symbol)
    ensures SymbolOfFilename(directory, EffectivePrefix(filenamePrefix, today), GetFilename(directory, filenamePrefix, today, symbol))
         == Some(symbol)
  {
    var head := directory + "/" + EffectivePrefix(filenamePrefix, today) + "_";
    var r := GetFilename(directory, filenamePrefix, today, symbol);
    assert r == head + symbol + Extension;
    assert r[..|head|] == head;
    assert r[|head|..|r| - |Extension|] == symbol;
  }

  /** For a fixed directory, prefix and day, distinct symbols get distinct files. */
  lemma FilenameInjective(directory: string, filenamePrefix: Option<string>, today: string, s1: Symbol, s2: Symbol)
    requires s1 != s2
    ensures GetFilename(directory, filenamePrefix, today, s1) != GetFilename(directory, filenamePrefix, today, s2)
  {
    FilenameRoundTrip(directory, filenamePrefix, today, s1);
    FilenameRoundTrip(directory, filenamePrefix, today, s2);
  }
}

=== FILE: leaderboard.dfy ===
/**
  The two leaderboard snapshots built from the ranked list
  (`get_top_n_tickers` and `get_bottom_n_tickers`), and the snapshot value
  itself (`TopNSymbols`, whose class is not part of this model: a snapshot is
  its event time plus its ordered (symbol, gap) entries, and two snapshots are
  equal when their entries are).
 */
module Leaderboard {
  import opened Common
  import opened Ranking

  /** Python's prefix slice `s[:n]`: a negative `n` drops `-n` entries from the end. */
  function PrefixSlice<T>(s: seq<T>, n: int): (r: seq<T>)
    ensures |r| <= |s| && r == s[..|r|]
    ensures 0 <= n ==> |r| == (if n < |s| then n else |s|)
    ensures n < 0 ==> |r| == (if |s| + n > 0 then |s| + n else 0)
  {
    if n >= 0 then (if n < |s| then s[..n] else s)
    else if |s| + n > 0 then s[..|s| + n] else []
  }

  /** The list comprehension `[t for t in s if keep(t)]`. */
  function Where(s: seq<Entry>, keep: Entry -> bool): (r: seq<Entry>)
    ensures forall i :: 0 <= i < |r| ==> keep(r[i])
    ensures |r| <= |s|
  {
    if |s| == 0 then []
    else
      var init := Where(s[..|s| - 1], keep);
      var last := s[|s| - 1];
      if keep(last) then init + [last] else init
  }

  /** The filter keeps every copy of a kept entry and no copy of a dropped one. */
  lemma {:induction false} WhereCounts(s: seq<Entry>, keep: Entry -> bool)
    ensures forall x :: multiset(Where(s, keep))[x] == (if keep(x) then multiset(s)[x] else 0)
    decreases |s|
  {
    if |s| > 0 {
      var last := s[|s| - 1];
      WhereCounts(s[..|s| - 1], keep);
      assert s == s[..|s| - 1] + [last];
    }
  }

  /** The filter keeps exactly the entries that satisfy `keep`. */
  lemma WhereMembers(s: seq<Entry>, keep: Entry -> bool)
    ensures forall x :: x in Where(s, keep) <==> x in s && keep(x)
  {
    WhereCounts(s, keep);
    forall x
      ensures x in Where(s, keep) <==> x in s && keep(x)
    {
      assert x in Where(s, keep) <==> x in multiset(Where(s, keep));
      assert x in s <==> x in multiset(s);
    }
  }

  /** Filtering an ascending list gives an ascending list. */
  lemma {:induction false} WhereAscending(s: seq<Entry>, keep: Entry -> bool)
    requires Ascending(s)
    ensures Ascending(Where(s, keep))
    decreases |s|
  {
    if |s| > 0 {
      var s', last := s[..|s| - 1], s[|s| - 1];
      var init := Where(s', keep);
      WhereAscending(s', keep);
      WhereCounts(s', keep);
      forall x | x in init
        ensures x.gap <= last.gap
      {
        assert x in multiset(init);
        assert x in multiset(s');
        var k :| 0 <= k < |s'| && s'[k] == x;
        assert s[k] == x;
      }
    }
  }

  /** Filtering a list whose symbols are distinct gives a list whose symbols are distinct. */
  lemma {:induction false} WhereDistinct(s: seq<Entry>, keep: Entry -> bool)
    requires DistinctSymbols(s)
    ensures DistinctSymbols(Where(s, keep))
    decreases |s|
  {
    if |s| > 0 {
      var s', last := s[..|s| - 1], s[|s| - 1];
      var init := Where(s', keep);
      WhereDistinct(s', keep);
      WhereCounts(s', keep);
      forall x | x in init
        ensures x.symbol != last.symbol
      {
        assert x in multiset(init);
        assert x in multiset(s');
        var k :| 0 <= k < |s'| && s'[k] == x;
        assert s[k] == x;
      }
    }
  }

  /**
    When `keep` decides every entry of gap `g` alike, the filter keeps the
    entries of that gap in their original order, all of them or none.
   */
  lemma {:induction false} WhereWithGap(s: seq<Entry>, keep: Entry -> bool, g: Gap, kept: bool)
    requires forall x: Entry :: x.gap == g ==> keep(x) == kept
    ensures WithGap(Where(s, keep), g) == (if kept then WithGap(s, g) else [])
    decreases |s|
  {
    if |s| > 0 {
      var last := s[|s| - 1];
      WhereWithGap(s[..|s| - 1], keep, g, kept);
      if keep(last) {
        WithGapAppend(Where(s[..|s| - 1], keep), [last], g);
      }
    }
  }

  /** `a` is an initial segment of `b`. */
  predicate IsPrefix(a: seq<Entry>, b: seq<Entry>) {
    |a| <= |b| && b[..|a|] == a
  }

  /** Cutting a list short cuts each gap value's entries short. */
  lemma WithGapPrefix(s: seq<Entry>, k: nat, g: Gap)
    requires k <= |s|
    ensures IsPrefix(WithGap(s[..k], g), WithGap(s, g))
  {
    assert s == s[..k] + s[k..];
    WithGapAppend(s[..k], s[k..], g);
  }

  predicate IsPositive(e: Entry) { e.gap > 0.0 }
  predicate IsNegative(e: Entry) { e.gap < 0.0 }

  /** `get_top_n_tickers`' entries: the first `n` entries of the ranked list with a positive gap. */
  function TopEntries(ranked: seq<Entry>, n: int): seq<Entry>
  {
    PrefixSlice(Where(ranked, IsPositive), n)
  }

  /** `get_bottom_n_tickers`' entries: the first `n` entries of the ranked list with a negative gap. */
  function BottomEntries(ranked: seq<Entry>, n: int): seq<Entry>
  {
    PrefixSlice(Where(ranked, IsNegative), n)
  }

  /** A published leaderboard: the time of the event that produced it and its ranked entries. */
  datatype Board = Board(time: Time, entries: seq<Entry>)

  /** `TopNSymbols.__eq__`, taken to compare the ordered entries and nothing else. */
  predicate SameBoard(a: Board, b: Board) {
    a.entries == b.entries
  }

  /**
    Selecting a prefix of the entries that satisfy `keep` from an ascending
    list: the selection is ascending, satisfies `keep`, has `n` entries or all
    the qualifying ones when there are fewer, takes the entries of each gap
    value in their ranked order, never repeats a symbol the ranked list does
    not repeat, and every qualifying entry left out has a gap no smaller than
    any selected one (and was left out only because the selection is full).
   */
  lemma {:induction false} SelectionSpec(ranked: seq<Entry>, keep: Entry -> bool, n: int)
    requires Ascending(ranked) && 0 <= n
    ensures var pos := Where(ranked, keep);
      var sel := PrefixSlice(pos, n);
      && |sel| == (if n < |pos| then n else |pos|)
      && Ascending(sel)
      && (forall y :: y in sel ==> y in ranked && keep(y))
      && (forall g :: IsPrefix(WithGap(sel, g), WithGap(pos, g)))
      && (DistinctSymbols(ranked) ==> DistinctSymbols(sel))
      && (forall x :: x in ranked && keep(x) && x !in sel ==>
            |sel| == n && forall y :: y in sel ==> y.gap <= x.gap)
  {
    SelectionShape(ranked, keep, n);
    SelectionSmallest(ranked, keep, n);
    WhereMembers(ranked, keep);
  }

  /** The selection's order and symbols come from the filtered list. */
  lemma SelectionShape(ranked: seq<Entry>, keep: Entry -> bool, n: int)
    requires 0 <= n
    ensures var pos := Where(ranked, keep);
      var sel := PrefixSlice(pos, n);
      && (forall g :: IsPrefix(WithGap(sel, g), WithGap(pos, g)))
      && (DistinctSymbols(ranked) ==> DistinctSymbols(sel))
  {
    var pos := Where(ranked, keep);
    var sel := PrefixSlice(pos, n);
    forall g
      ensures IsPrefix(WithGap(sel, g), WithGap(pos, g))
    {
      WithGapPrefix(pos, |sel|, g);
    }
    if DistinctSymbols(ranked) {
      WhereDistinct(ranked, keep);
    }
  }

  /** What the selection leaves out has a gap no smaller than anything it keeps. */
  lemma SelectionSmallest(ranked: seq<Entry>, keep: Entry -> bool, n: int)
    requires Ascending(ranked) && 0 <= n
    ensures var sel := PrefixSlice(Where(ranked, keep), n);
      && Ascending(sel)
      && (forall x :: x in ranked && keep(x) && x !in sel ==>
            |sel| == n && forall y :: y in sel ==> y.gap <= x.gap)
  {
    var pos := Where(ranked, keep);
    var sel := PrefixSlice(pos, n);
    WhereAscending(ranked, keep);
    WhereMembers(ranked, keep);
    AscendingPrefix(pos, |sel|);
    forall x | x in ranked && keep(x) && x !in sel
      ensures |sel| == n && forall y :: y in sel ==> y.gap <= x.gap
    {
      assert x in pos;
      var j :| 0 <= j < |pos| && pos[j] == x;
      assert forall i :: 0 <= i < |sel| ==> sel[i] != x;
      forall y | y in sel
        ensures y.gap <= x.gap
      {
        var i :| 0 <= i < |sel| && sel[i] == y;
        assert pos[i] == y;
      }
    }
  }

  /**
    The top snapshot holds `n` entries with a positive gap (or all of them
    when there are fewer), in ascending order; for every gap value it takes
    that value's entries in their ranked order, and none with a gap of zero
    or below; a positive entry is left out only when the snapshot is full of
    entries whose gaps are no larger. So, as written, the top snapshot holds
    the `n` smallest positive gaps.
   */
  lemma {:induction false} TopEntriesSpec(ranked: seq<Entry>, n: int)
    requires Ascending(ranked) && 0 <= n
    ensures var positive := Where(ranked, IsPositive);
      var top := TopEntries(ranked, n);
      && |top| == (if n < |positive| then n else |positive|)
      && Ascending(top)
      && (forall y :: y in top ==> y in ranked && y.gap > 0.0)
      && (forall g :: IsPrefix(WithGap(top, g), if g > 0.0 then WithGap(ranked, g) else []))
      && (DistinctSymbols(ranked) ==> DistinctSymbols(top))
      && (forall x :: x in ranked && x.gap > 0.0 && x !in top ==>
            |top| == n && forall y :: y in top ==> y.gap <= x.gap)
  {
    SelectionSpec(ranked, IsPositive, n);
    forall g {
      WhereWithGap(ranked, IsPositive, g, g > 0.0);
    }
  }

  /**
    The bottom snapshot holds `n` entries with a negative gap (or all of them
    when there are fewer), most negative first; for every gap value it takes
    that value's entries in their ranked order, and none with a gap of zero
    or above; a negative entry is left out only when the snapshot is full of
    entries whose gaps are no larger (the `n` most negative gaps).
   */
  lemma {:induction false} BottomEntriesSpec(ranked: seq<Entry>, n: int)
    requires Ascending(ranked) && 0 <= n
    ensures var negative := Where(ranked, IsNegative);
      var bottom := BottomEntries(ranked, n);
      && |bottom| == (if n < |negative| then n else |negative|)
      && Ascending(bottom)
      && (forall y :: y in bottom ==> y in ranked && y.gap < 0.0)
      && (forall g :: IsPrefix(WithGap(bottom, g), if g < 0.0 then WithGap(ranked, g) else []))
      && (DistinctSymbols(ranked) ==> DistinctSymbols(bottom))
      && (forall x :: x in ranked && x.gap < 0.0 && x !in bottom ==>
            |bottom| == n && forall y :: y in bottom ==> y.gap <= x.gap)
  {
    SelectionSpec(ranked, IsNegative, n);
    forall g {
      WhereWithGap(ranked, IsNegative, g, g < 0.0);
    }
  }

  /**
    With a negative count, Python's slice drops entries from the end instead:
    `[:-k]` keeps all but the last `k` qualifying entries, on either board.
   */
  lemma NegativeCountDropsFromEnd(ranked: seq<Entry>, n: int)
    requires n < 0
    ensures var pos := Where(ranked, IsPositive);
      TopEntries(ranked, n) == (if |pos| + n > 0 then pos[..|pos| + n] else [])
    ensures var neg := Where(ranked, IsNegative);
      BottomEntries(ranked, n) == (if |neg| + n > 0 then neg[..|neg| + n] else [])
  {
  }

  /** Snapshot equality is order-sensitive: the same entries in another order differ. */
  lemma SameBoardOrderSensitive(t: Time)
    ensures !SameBoard(Board(t, [Entry("A", 5.0), Entry("B", 3.0)]),
                       Board(t, [Entry("B", 3.0), Entry("A", 5.0)]))
  {
    assert [Entry("A", 5.0), Entry("B", 3.0)][0] != [Entry("B", 3.0), Entry("A", 5.0)][0];
  }

  /**
    Gaps A = +5, B = +3, C = +7 with a top count of 2: ranking ascending, the
    top snapshot is [(B, 3), (A, 5)], the two SMALLEST positive gaps, not the
    two largest.
   */
  lemma TopKeepsSmallestPositives()
    ensures TopEntries(SortByGap([Entry("A", 5.0), Entry("B", 3.0), Entry("C", 7.0)]), 2)
         == [Entry("B", 3.0), Entry("A", 5.0)]
  {
    var a, b, c := Entry("A", 5.0), Entry("B", 3.0), Entry("C", 7.0);
    SortExample();
    FilterExample();
    assert [b, a, c][..2] == [b, a];
  }

  lemma SortExample()
    ensures SortByGap([Entry("A", 5.0), Entry("B", 3.0), Entry("C", 7.0)])
         == [Entry("B", 3.0), Entry("A", 5.0), Entry("C", 7.0)]
  {
    var a, b, c := Entry("A", 5.0), Entry("B", 3.0), Entry("C", 7.0);
    assert [a, b, c][..2] == [a, b];
    assert [a, b][..1] == [a];
    assert [a][..0] == [];
    assert SortByGap([a]) == [a];
    assert Insert([], b) == [b];
    assert Insert([a], b) == [b, a];
    assert SortByGap([a, b]) == [b, a];
    assert Insert([b, a], c) == [b, a, c];
  }

  lemma FilterExample()
    ensures Where([Entry("B", 3.0), Entry("A", 5.0), Entry("C", 7.0)], IsPositive)
         == [Entry("B", 3.0), Entry("A", 5.0), Entry("C", 7.0)]
  {
    var a, b, c := Entry("A", 5.0), Entry("B", 3.0), Entry("C", 7.0);
    assert [b, a, c][..2] == [b, a];
    assert [b, a][..1] == [b];
    assert [b][..0] == [];
    assert IsPositive(a) && IsPositive(b) && IsPositive(c);
    assert Where([], IsPositive) == [];
    assert Where([b], IsPositive) == Where([], IsPositive) + [b] == [b];
    assert Where([b, a], IsPositive) == Where([b], IsPositive) + [a] == [b, a];
  }
}

=== FILE: market_hours.dfy ===
/**
  Trading-session lookup (`get_market_open_close`) and the core-market-minutes
  test (`is_core_market_minutes`). The exchange calendar is a foreign library:
  it is modelled as a function from a calendar date to an optional session,
  together with the function that reads an instant's local date.
 */
module MarketHours {
  import opened Common

  /** A calendar date, as a day number; how an instant maps to it is the calendar's business. */
  type Date = int

  /** One trading session: `open` is inclusive, `close` is exclusive. */
  datatype Session = Session(open: Time, close: Time)

  datatype Calendar = Calendar(
    dateOf: Time -> Date,             // `datetime2datestr(dt)`, in one fixed time zone
    sessions: Date -> Option<Session>  // `is_session`, `session_open`, `session_close`
  )

  /** The session, if any, on the date of `dt`. */
  function SessionAt(cal: Calendar, dt: Time): Option<Session>
  {
    cal.sessions(cal.dateOf(dt))
  }

  /**
    `get_market_open_close(dt)`: the pair (open, close) for the date of `dt`,
    both absent on a non-session date and both present otherwise.
   */
  function MarketOpenClose(cal: Calendar, dt: Time): (r: (Option<Time>, Option<Time>))
    ensures r.0.None? <==> r.1.None?
    ensures r.0.None? <==> SessionAt(cal, dt).None?
    ensures r.0.Some? ==> SessionAt(cal, dt) == Some(Session(r.0.value, r.1.value))
  {
    match SessionAt(cal, dt)
    case None => (None, None)
    case Some(s) => (Some(s.open), Some(s.close))
  }

  /** Whether `dt` lies in `[lo, hi)`. */
  predicate InHalfOpen(dt: Time, lo: Time, hi: Time) {
    lo <= dt < hi
  }

  /**
    `is_core_market_minutes(dt)`: false on a non-session date, otherwise true
    exactly when `dt` lies in `[open, close)` of that date's session.
   */
  function IsCoreMarketMinutes(cal: Calendar, dt: Time): (b: bool)
    ensures SessionAt(cal, dt).None? ==> !b
    ensures b <==> exists s :: SessionAt(cal, dt) == Some(s) && s.open <= dt < s.close
  {
    var (open, close) := MarketOpenClose(cal, dt);
    if open.None? || close.None? then false
    else InHalfOpen(dt, open.value, close.value)
  }
}

=== FILE: naming.dfy ===
/**
  `camel_to_snake`: every upper-case letter becomes `_` followed by its
  lower-case form, other characters are copied, and all leading underscores
  of the result are stripped.
 */
module Naming {

  /** `c.isupper()`, for ASCII letters. */
  predicate IsUpper(c: char) {
    'A' <= c <= 'Z'
  }

  /** `c.lower()`, for ASCII letters; other characters are unchanged. */
  function Lower(c: char): (d: char)
    ensures !IsUpper(d)
    ensures !IsUpper(c) ==> d == c
    ensures IsUpper(c) ==> d != '_' && d as int == c as int + 32
  {
    if IsUpper(c) then (c as int - 'A' as int + 'a' as int) as char else c
  }

  /** What the list comprehension turns one character into. */
  function Piece(c: char): string
  {
    if IsUpper(c) then ['_', Lower(c)] else [c]
  }

  /** `"".join(...)` of the pieces, before stripping. */
  function Expand(name: string): string
  {
    if |name| == 0 then "" else Expand(name[..|name| - 1]) + Piece(name[|name| - 1])
  }

  /** `s.lstrip("_")`: drops every leading underscore, and nothing else. */
  function LStripUnderscores(s: string): (r: string)
    ensures |r| <= |s| && r == s[|s| - |r|..]
    ensures forall i :: 0 <= i < |s| - |r| ==> s[i] == '_'
    ensures |r| == 0 || r[0] != '_'
  {
    if |s| > 0 && s[0] == '_' then LStripUnderscores(s[1..]) else s
  }

  /** The characters of `s` other than `_`, in order. */
  function DropUnderscores(s: string): string
  {
    if |s| == 0 then "" else DropUnderscores(s[..|s| - 1]) + (if s[|s| - 1] == '_' then "" else [s[|s| - 1]])
  }

  /** `s` with every upper-case letter lowered. */
  function LowerAll(s: string): (r: string)
    ensures |r| == |s|
  {
    if |s| == 0 then "" else LowerAll(s[..|s| - 1]) + [Lower(s[|s| - 1])]
  }

  predicate NoUpper(s: string) {
    forall i :: 0 <= i < |s| ==> !IsUpper(s[i])
  }

  lemma {:induction false} DropUnderscoresAppend(a: string, b: string)
    ensures DropUnderscores(a + b) == DropUnderscores(a) + DropUnderscores(b)
    decreases |b|
  {
    if |b| == 0 {
      assert a + b == a;
    } else {
      DropUnderscoresAppend(a, b[..|b| - 1]);
      assert (a + b)[..|a + b| - 1] == a + b[..|b| - 1];
    }
  }

  lemma {:induction false} ExpandAppend(a: string, b: string)
    ensures Expand(a + b) == Expand(a) + Expand(b)
    decreases |b|
  {
    if |b| == 0 {
      assert a + b == a;
    } else {
      var b', c := b[..|b| - 1], b[|b| - 1];
      ExpandAppend(a, b');
      assert (a + b)[..|a + b| - 1] == a + b';
      assert (a + b)[|a + b| - 1] == c;
      assert Expand(a + b) == Expand(a + b') + Piece(c);
      assert Expand(b) == Expand(b') + Piece(c);
    }
  }

  lemma {:induction false} ExpandNoUpper(name: string)
    ensures NoUpper(Expand(name))
    decreases |name|
  {
    if |name| > 0 {
      ExpandNoUpper(name[..|name| - 1]);
    }
  }

  /** A character's piece, underscores dropped, is the character lowered, or nothing for an underscore. */
  lemma PieceLetters(c: char)
    ensures DropUnderscores(Piece(c)) == (if c == '_' then "" else [Lower(c)])
  {
    if IsUpper(c) {
      assert ['_', Lower(c)][..1] == ['_'];
      assert ['_'][..0] == [];
    } else {
      assert [c][..0] == [];
    }
  }

  lemma {:induction false} ExpandLetters(name: string)
    ensures DropUnderscores(Expand(name)) == LowerAll(DropUnderscores(name))
    decreases |name|
  {
    if |name| > 0 {
      var init, c := name[..|name| - 1], name[|name| - 1];
      ExpandLetters(init);
      DropUnderscoresAppend(Expand(init), Piece(c));
      PieceLetters(c);
      var d := DropUnderscores(init);
      if c != '_' {
        assert DropUnderscores(name) == d + [c];
        assert (d + [c])[..|d|] == d;
        assert LowerAll(d + [c]) == LowerAll(d) + [Lower(c)];
      } else {
        assert DropUnderscores(name) == d;
      }
    }
  }

  lemma DropLeadingUnderscore(t: string)
    ensures DropUnderscores("_" + t) == DropUnderscores(t)
  {
    DropUnderscoresAppend("_", t);
    assert "_"[..0] == [];
  }

  lemma {:induction false} StripKeepsLetters(s: string)
    ensures DropUnderscores(LStripUnderscores(s)) == DropUnderscores(s)
    decreases |s|
  {
    if |s| > 0 && s[0] == '_' {
      var t := s[1..];
      StripKeepsLetters(t);
      assert s == "_" + t;
      DropLeadingUnderscore(t);
    }
  }

  /**
    `camel_to_snake(name)`: the result has no upper-case letter, never starts
    with `_`, and apart from underscores it is `name` lower-cased, character
    for character.
   */
  function CamelToSnake(name: string): (r: string)
    ensures NoUpper(r)
    ensures |r| == 0 || r[0] != '_'
    ensures DropUnderscores(r) == LowerAll(DropUnderscores(name))
  {
    ExpandNoUpper(name);
    ExpandLetters(name);
    StripKeepsLetters(Expand(name));
    LStripUnderscores(Expand(name))
  }

  lemma {:induction false} ExpandIdentity(name: string)
    requires NoUpper(name)
    ensures Expand(name) == name
    decreases |name|
  {
    if |name| > 0 {
      ExpandIdentity(name[..|name| - 1]);
    }
  }

  /** A name with no upper-case letter and no leading `_` is returned unchanged. */
  lemma CamelToSnakeIdentity(name: string)
    requires NoUpper(name) && (|name| == 0 || name[0] != '_')
    ensures CamelToSnake(name) == name
  {
    ExpandIdentity(name);
  }

  /** Converting twice is converting once. */
  lemma CamelToSnakeIdempotent(name: string)
    ensures CamelToSnake(CamelToSnake(name)) == CamelToSnake(name)
  {
    CamelToSnakeIdentity(CamelToSnake(name));
  }

  /** Leading underscores of the input are stripped as well. */
  lemma LeadingUnderscoreIgnored(name: string)
    ensures CamelToSnake("_" + name) == CamelToSnake(name)
  {
    ExpandAppend("_", name);
    assert Expand("_") == "_" by {
      assert "_"[..0] == "";
    }
    assert ("_" + Expand(name))[1..] == Expand(name);
  }

  lemma TailAppend(s: string, t: string)
    requires |s| > 0
    ensures (s + t)[1..] == s[1..] + t
  {
  }

  /** Once something other than underscores is left, stripping ignores what follows. */
  lemma {:induction false} StripAppendKept(s: string, t: string)
    requires LStripUnderscores(s) != ""
    ensures LStripUnderscores(s + t) == LStripUnderscores(s) + t
    decreases |s|
  {
    if s[0] == '_' {
      TailAppend(s, t);
      StripAppendKept(s[1..], t);
    }
  }

  /** A prefix made only of underscores is stripped away entirely. */
  lemma {:induction false} StripAppendGone(s: string, t: string)
    requires LStripUnderscores(s) == ""
    ensures LStripUnderscores(s + t) == LStripUnderscores(t)
    decreases |s|
  {
    if |s| == 0 {
      assert s + t == t;
    } else {
      TailAppend(s, t);
      StripAppendGone(s[1..], t);
    }
  }

  /**
    Appending one character: an upper-case letter adds `_` and its lower-case
    form, any other character adds itself; while the result so far is empty,
    the added piece loses its leading underscore.
   */
  lemma CamelToSnakeSnoc(name: string, c: char)
    ensures CamelToSnake(name + [c]) ==
      if CamelToSnake(name) == "" then
        (if IsUpper(c) then [Lower(c)] else if c == '_' then "" else [c])
      else CamelToSnake(name) + (if IsUpper(c) then ['_', Lower(c)] else [c])
  {
    assert (name + [c])[..|name|] == name;
    assert Expand(name + [c]) == Expand(name) + Piece(c);
    if CamelToSnake(name) == "" {
      StripAppendGone(Expand(name), Piece(c));
      if IsUpper(c) {
        assert Piece(c)[1..] == [Lower(c)];
      } else if c == '_' {
        assert Piece(c)[1..] == "";
      }
    } else {
      StripAppendKept(Expand(name), Piece(c));
    }
  }

  /** A capitalised word becomes `_` and the word in lower case. */
  lemma ExpandCapitalised(c: char, rest: string)
    requires IsUpper(c) && NoUpper(rest)
    ensures Expand([c] + rest) == ['_', Lower(c)] + rest
  {
    ExpandAppend([c], rest);
    ExpandIdentity(rest);
    assert [c][..0] == [];
  }

  /** `camel_to_snake("CamelCase") == "camel_case"`. */
  lemma CamelCaseExample()
    ensures CamelToSnake("CamelCase") == "camel_case"
  {
    var camel, case_ := ['C'] + "amel", ['C'] + "ase";
    assert Lower('C') == 'c';
    ExpandCapitalised('C', "amel");
    ExpandCapitalised('C', "ase");
    assert "CamelCase" == camel + case_;
    ExpandAppend(camel, case_);
    var expanded := "_camel" + "_case";
    assert Expand("CamelCase") == expanded;
    assert expanded[0] == '_' && expanded[1..] == "camel_case";
    assert LStripUnderscores(expanded) == LStripUnderscores("camel_case");
  }
}

=== FILE: offsets.dfy ===
/**
  The partition enumeration of `set_offsets_by_time`: which partitions get
  sought, and to what timestamp. The consumer's metadata is passed in: its
  subscription (possibly `None`) and, per topic, its partition set (possibly
  `None` when the topic's metadata is unknown).
 */
module Offsets {
  import opened Common

  datatype TopicPartition = TopicPartition(topic: string, partition: int)

  /** `p` is a partition the consumer's metadata lists for a topic in `topics`. */
  predicate Listed(topics: set<string>, partitionsFor: string -> Option<set<int>>, p: TopicPartition) {
    && p.topic in topics
    && partitionsFor(p.topic).Some?
    && p.partition in partitionsFor(p.topic).value
  }

  /**
    The inner loop `for p in parts: partitions.append(TopicPartition(t, p))`:
    the earlier entries stay in front, and behind them every partition of
    `t` is appended exactly once.
   */
  method AppendPartitions(parts: seq<TopicPartition>, t: string, ps: set<int>)
    returns (out: seq<TopicPartition>)
    ensures |parts| <= |out| && out[..|parts|] == parts
    ensures forall p :: p in out[|parts|..] <==> p.topic == t && p.partition in ps
    ensures forall i, j :: |parts| <= i < j < |out| ==> out[i] != out[j]
    ensures forall p :: p in out <==> p in parts || (p.topic == t && p.partition in ps)
  {
    out := parts;
    var todo := set n | n in ps :: TopicPartition(t, n);
    ghost var done: set<TopicPartition> := {};
    while todo != {}
      invariant |parts| <= |out| && out[..|parts|] == parts
      invariant forall p :: p in todo ==> p.topic == t && p.partition in ps && p !in done
      invariant forall p: TopicPartition :: p.topic == t && p.partition in ps ==> p in todo || p in done
      invariant forall p :: p in out[|parts|..] <==> p in done
      invariant forall i, j :: |parts| <= i < j < |out| ==> out[i] != out[j]
      invariant forall p :: p in done ==> p.topic == t && p.partition in ps
      decreases todo
    {
      var p :| p in todo;
      assert out[|parts|..] + [p] == (out + [p])[|parts|..];
      out := out + [p];
      todo := todo - {p};
      done := done + {p};
    }
    assert out == out[..|parts|] + out[|parts|..];
  }

  /**
    The loop over the subscribed topics: skips a topic whose partition set is
    `None`, and otherwise collects one `TopicPartition` per partition.
   */
  method CollectPartitions(topics: set<string>, partitionsFor: string -> Option<set<int>>)
    returns (parts: seq<TopicPartition>)
    ensures forall p :: p in parts <==> Listed(topics, partitionsFor, p)
  {
    parts := [];
    var remaining := topics;
    while remaining != {}
      invariant remaining <= topics
      invariant forall p :: p in parts <==> Listed(topics - remaining, partitionsFor, p)
      decreases remaining
    {
      var t :| t in remaining;
      var found := partitionsFor(t);
      if found.Some? {
        parts := AppendPartitions(parts, t, found.value);
      }
      remaining := remaining - {t};
    }
  }

  /**
    `set_offsets_by_time(consumer, start_time)` up to the `offsets_for_times`
    call: `None` when the subscription is `None` or empty (the early return),
    otherwise the map sending every listed partition, and nothing else, to
    the start time in milliseconds.
   */
  method SeekTargets(subscription: Option<set<string>>, partitionsFor: string -> Option<set<int>>, startMs: int)
    returns (targets: Option<map<TopicPartition, int>>)
    ensures targets.None? <==> subscription.None? || subscription.value == {}
    ensures targets.Some? ==> forall p :: p in targets.value <==> Listed(subscription.value, partitionsFor, p)
    ensures targets.Some? ==> forall p :: p in targets.value ==> targets.value[p] == startMs
  {
    if subscription.None? || subscription.value == {} {
      return None;
    }
    var parts := CollectPartitions(subscription.value, partitionsFor);
    targets := Some(map p | p in parts :: startMs);
  }
}

=== FILE: ranking.dfy ===
/**
  Ranking of the tracked tickers: `rank_tickers` sorts the list of tickers,
  taken in the dictionary's insertion order, by `gap` with Python's stable
  `list.sort`. The model sorts (symbol, gap) entries with a stable insertion
  sort and proves that any stable ascending sort gives the same list.
 */
module Ranking {
  import opened Common

  /** The ranking metric of a ticker; its formula lives outside the core. */
  type Gap = real

  datatype Entry = Entry(symbol: Symbol, gap: Gap)

  /** Non-decreasing by gap. */
  predicate Ascending(s: seq<Entry>) {
    forall i, j :: 0 <= i < j < |s| ==> s[i].gap <= s[j].gap
  }

  /** The entries of `s` whose gap is exactly `g`, in their order in `s`. */
  function WithGap(s: seq<Entry>, g: Gap): seq<Entry>
  {
    if |s| == 0 then []
    else WithGap(s[..|s| - 1], g) + (if s[|s| - 1].gap == g then [s[|s| - 1]] else [])
  }

  /** No symbol is listed twice. */
  predicate DistinctSymbols(s: seq<Entry>) {
    forall i, j :: 0 <= i < j < |s| ==> s[i].symbol != s[j].symbol
  }

  /** `out` keeps, for every gap value, the relative order that entries of that gap had in `inp`. */
  ghost predicate StableFor(inp: seq<Entry>, out: seq<Entry>) {
    forall g :: WithGap(out, g) == WithGap(inp, g)
  }

  /** Inserts `x` behind every entry whose gap is at most `x.gap`. */
  function Insert(s: seq<Entry>, x: Entry): seq<Entry>
  {
    if |s| == 0 || s[|s| - 1].gap <= x.gap then s + [x]
    else Insert(s[..|s| - 1], x) + [s[|s| - 1]]
  }

  /** Stable sort by gap, ascending (the `tickers.sort(key=lambda t: t.gap)` step). */
  function SortByGap(s: seq<Entry>): seq<Entry>
  {
    if |s| == 0 then [] else Insert(SortByGap(s[..|s| - 1]), s[|s| - 1])
  }

  lemma {:induction false} WithGapAppend(a: seq<Entry>, b: seq<Entry>, g: Gap)
    ensures WithGap(a + b, g) == WithGap(a, g) + WithGap(b, g)
    decreases |b|
  {
    if |b| == 0 {
      assert a + b == a;
    } else {
      var b' := b[..|b| - 1];
      assert (a + b)[..|a + b| - 1] == a + b';
      WithGapAppend(a, b', g);
    }
  }

  lemma {:induction false} WithGapMember(s: seq<Entry>, g: Gap, x: Entry)
    requires x in WithGap(s, g)
    ensures x in s && x.gap == g
    decreases |s|
  {
    if |s| > 0 {
      var s' := s[..|s| - 1];
      if x in WithGap(s', g) {
        WithGapMember(s', g, x);
        assert s == s' + [s[|s| - 1]];
      }
    }
  }

  lemma {:induction false} InsertContents(s: seq<Entry>, x: Entry)
    ensures multiset(Insert(s, x)) == multiset(s) + multiset{x}
    decreases |s|
  {
    if |s| > 0 && s[|s| - 1].gap > x.gap {
      var s' := s[..|s| - 1];
      InsertContents(s', x);
      assert s == s' + [s[|s| - 1]];
    }
  }

  lemma {:induction false} InsertAscending(s: seq<Entry>, x: Entry)
    requires Ascending(s)
    ensures Ascending(Insert(s, x))
    decreases |s|
  {
    if |s| > 0 && s[|s| - 1].gap > x.gap {
      var s' := s[..|s| - 1];
      var last := s[|s| - 1];
      InsertAscending(s', x);
      InsertContents(s', x);
      var t := Insert(s', x);
      forall i | 0 <= i < |t|
        ensures t[i].gap <= last.gap
      {
        assert t[i] in multiset(t);
        if t[i] != x {
          assert t[i] in multiset(s');
          var k :| 0 <= k < |s'| && s'[k] == t[i];
          assert s[k] == t[i];
        }
      }
    }
  }

  lemma {:induction false} InsertWithGap(s: seq<Entry>, x: Entry, g: Gap)
    ensures WithGap(Insert(s, x), g) == WithGap(s, g) + (if x.gap == g then [x] else [])
    decreases |s|
  {
    if |s| == 0 || s[|s| - 1].gap <= x.gap {
      WithGapAppend(s, [x], g);
    } else {
      var s' := s[..|s| - 1];
      var last := s[|s| - 1];
      InsertWithGap(s', x, g);
      WithGapAppend(Insert(s', x), [last], g);
    }
  }

  /** The sort returns the same entries it was given. */
  lemma {:induction false} SortByGapPermutes(s: seq<Entry>)
    ensures multiset(SortByGap(s)) == multiset(s)
    decreases |s|
  {
    if |s| > 0 {
      var s' := s[..|s| - 1];
      SortByGapPermutes(s');
      InsertContents(SortByGap(s'), s[|s| - 1]);
      assert s == s' + [s[|s| - 1]];
    }
  }

  /** The sort's result is non-decreasing by gap. */
  lemma {:induction false} SortByGapAscending(s: seq<Entry>)
    ensures Ascending(SortByGap(s))
    decreases |s|
  {
    if |s| > 0 {
      SortByGapAscending(s[..|s| - 1]);
      InsertAscending(SortByGap(s[..|s| - 1]), s[|s| - 1]);
    }
  }

  /** The sort keeps entries of equal gap in their input order. */
  lemma {:induction false} SortByGapStable(s: seq<Entry>)
    ensures StableFor(s, SortByGap(s))
    decreases |s|
  {
    if |s| > 0 {
      var s' := s[..|s| - 1];
      var x := s[|s| - 1];
      SortByGapStable(s');
      forall g
        ensures WithGap(SortByGap(s), g) == WithGap(s, g)
      {
        InsertWithGap(SortByGap(s'), x, g);
      }
    }
  }

  /** Inserting an entry whose symbol is new keeps the symbols distinct. */
  lemma {:induction false} InsertDistinct(s: seq<Entry>, x: Entry)
    requires DistinctSymbols(s)
    requires forall y :: y in s ==> y.symbol != x.symbol
    ensures DistinctSymbols(Insert(s, x))
    decreases |s|
  {
    if |s| > 0 && s[|s| - 1].gap > x.gap {
      var s' := s[..|s| - 1];
      var last := s[|s| - 1];
      InsertDistinct(s', x);
      InsertContents(s', x);
      var t := Insert(s', x);
      forall i | 0 <= i < |t|
        ensures t[i].symbol != last.symbol
      {
        assert t[i] in multiset(t);
        if t[i] != x {
          assert t[i] in multiset(s');
          var k :| 0 <= k < |s'| && s'[k] == t[i];
          assert s[k] == t[i];
        }
      }
    }
  }

  /** Sorting a list whose symbols are distinct gives a list whose symbols are distinct. */
  lemma {:induction false} SortByGapDistinct(s: seq<Entry>)
    requires DistinctSymbols(s)
    ensures DistinctSymbols(SortByGap(s))
    decreases |s|
  {
    if |s| > 0 {
      var s' := s[..|s| - 1];
      var x := s[|s| - 1];
      SortByGapDistinct(s');
      SortByGapPermutes(s');
      forall y | y in SortByGap(s')
        ensures y.symbol != x.symbol
      {
        assert y in multiset(SortByGap(s'));
        var k :| 0 <= k < |s'| && s'[k] == y;
        assert s[k] == y;
      }
      InsertDistinct(SortByGap(s'), x);
    }
  }

  lemma AscendingPrefix(s: seq<Entry>, k: nat)
    requires Ascending(s) && k <= |s|
    ensures Ascending(s[..k])
  {
  }

  /** The last entry of an ascending list carries the largest gap. */
  lemma AscendingLastIsMax(s: seq<Entry>, x: Entry)
    requires Ascending(s) && x in s
    ensures x.gap <= s[|s| - 1].gap
  {
  }

  lemma LastEntryListed(s: seq<Entry>)
    ensures |s| > 0 ==> WithGap(s, s[|s| - 1].gap) != []
  {
  }

  /**
    Two ascending lists that agree gap value by gap value end with the same
    entry, and still agree once that entry is dropped from both.
   */
  lemma LastEntriesAgree(a: seq<Entry>, b: seq<Entry>)
    requires |a| > 0 && |b| > 0
    requires Ascending(a) && Ascending(b)
    requires forall g :: WithGap(a, g) == WithGap(b, g)
    ensures a[|a| - 1] == b[|b| - 1]
    ensures StableFor(b[..|b| - 1], a[..|a| - 1])
  {
    var a', x := a[..|a| - 1], a[|a| - 1];
    var b', y := b[..|b| - 1], b[|b| - 1];
    assert x in WithGap(b, x.gap);
    WithGapMember(b, x.gap, x);
    AscendingLastIsMax(b, x);
    assert y in WithGap(a, y.gap);
    WithGapMember(a, y.gap, y);
    AscendingLastIsMax(a, y);
    assert x.gap == y.gap;
    var wa, wb := WithGap(a', x.gap), WithGap(b', x.gap);
    assert WithGap(a, x.gap) == wa + [x];
    assert WithGap(b, x.gap) == wb + [y];
    assert |wa| == |wb|;
    assert (wa + [x])[|wa|] == x && (wb + [y])[|wb|] == y;
    assert wa == (wa + [x])[..|wa|] == (wb + [y])[..|wb|] == wb;
    forall g
      ensures WithGap(a', g) == WithGap(b', g)
    {
      if g != x.gap {
        assert WithGap(a, g) == WithGap(a', g);
        assert WithGap(b, g) == WithGap(b', g);
      }
    }
  }

  /**
    Uniqueness: two ascending lists that agree, gap value by gap value, on the
    order of their entries are equal. So every stable ascending sort of the
    same input (Python's Timsort included) returns `SortByGap`'s list.
   */
  lemma {:induction false} StableAscendingUnique(a: seq<Entry>, b: seq<Entry>)
    requires Ascending(a) && Ascending(b)
    requires forall g :: WithGap(a, g) == WithGap(b, g)
    ensures a == b
    decreases |a| + |b|
  {
    if |a| == 0 || |b| == 0 {
      // both are empty: an entry of one would have to appear in the other
      LastEntryListed(a);
      LastEntryListed(b);
    } else {
      LastEntriesAgree(a, b);
      AscendingPrefix(a, |a| - 1);
      AscendingPrefix(b, |b| - 1);
      StableAscendingUnique(a[..|a| - 1], b[..|b| - 1]);
      assert a == a[..|a| - 1] + [a[|a| - 1]];
      assert b == b[..|b| - 1] + [b[|b| - 1]];
    }
  }
}
